=== FILE: README.md ===
# Memory pairs: a Dafny model of the game core

The game is a browser memory-matching game. The player picks a board size
of 2, 4, 6 or 8 and a name. The board holds size² face-down cards, two of
each face. The player turns cards up two at a time against a clock. A
matching pair stays up. A failed pair turns back down after one second.
The best time per board size is kept with the player's name.

This project models the two parts of js/game.js and js/shared.js that
carry invariants. Both are written as immutable values and pure functions.

- **Deck generation** (`getNewDeck`, `getFreeIndex`), in the `Deck` and
  `Shared` modules. The board is a `seq<int>` in which 0 marks an unset
  slot. Card ids run from 1 to 37. Each random free-cell pick is a
  nondeterministic choice (`:|`). The rejection loop itself is also
  modelled, run against a finite sequence of random draws.
- **The game session**, in the `Session` module. It holds the flip flag
  of every slot, the pending first card (`elPreviousCard`), the
  matched-couple counter, the `isPlaying`, `isPaused` and `isProcessing`
  flags, the clock and the best-score store. Card elements become slot
  indices. The one-second flip-back after a mismatch is its own `Settle`
  event. Timer ticks are `Tick` events. `Step` applies one event and `Run`
  applies a sequence of them.
- **The UI rules**, in the `Controls`, `Scores` and `Shared` modules. These
  are the start-button rule, the keyboard table, the best-score rule,
  `pad` and `formatTime`.

Modules: `Optional` (the option type), `Shared` (js/shared.js), `Deck`,
`Scores`, `Controls` and `Session` (js/game.js).

What is proved, in the system's terms:

- Any board size the dealing loop can finish yields a full deck of size²
  slots. Every slot holds an id from 1 to 37. Every id that appears
  appears exactly twice, so the deck has size²/2 distinct faces.
- The dealing loop finishes exactly for sizes 0, 2, 4, 6 and 8. On any
  other size it reaches an iteration where some free-cell pick has no free
  cell left, so that pick draws forever. No deck exists for those sizes.
- A free-cell pick returns an unset cell. An index is a possible pick
  exactly when its cell is unset.
- Every event keeps the session invariant. One consequence is that the
  matched-couple counter never passes the number of couples.
- Clicks are ignored while a flip-back is pending.
- A click on a face-up card leaves the cards alone. So the pending card
  cannot match itself.
- A match adds exactly one couple and keeps both cards up. Matching the
  last couple stops the game.
- A mismatch followed by its flip-back restores the cards as they were.
- Pausing does not cancel a pending flip-back.
- A time becomes the record only if it is strictly faster than the old
  one, or if there was no record. Over many games, the record is the
  fastest time, and among equal times the earliest game keeps it.
- `pad` and `formatTime` produce numerals that read back as the values
  they were given.

## Model

| member | source | states |
|---|---|---|
| Shared.GetFreeIndex | js/shared.js:2-8 | The pick returns an index inside the array whose cell is unset. It is called only when an unset cell exists, since the loop ends only on one. The array is a value and is not changed. |
| Shared.FirstFreeDraw | js/shared.js:2-8 | The rejection loop run on random draws returns the first draw that lands on an unset cell, and every earlier draw landed on a set cell. It gives nothing exactly when no draw lands on an unset cell, and so always gives nothing when no cell is unset. |
| Shared.EveryFreeIndexCanBeDrawn | js/shared.js:2-13 | An index is an outcome of some run of the rejection loop exactly when its cell is unset. This makes the loop and the nondeterministic pick agree. |
| Shared.Fill | js/game.js:133-134 | `Array(n)` has n cells, and every one of them is unset. |
| Shared.Decimal | js/shared.js:17 | A number shown as text is a numeral that parses back to the number. It is one digit exactly when the number is at most 9, and it has no leading zero. |
| Shared.Pad | js/shared.js:16-18 | The result is a numeral of at least two digits that parses back to the value. Values up to 9 get one leading zero. Larger values are shown unchanged. |
| Shared.FormatTime | js/shared.js:21-25 | Under an hour, the display has eight characters in the form `00:MM:SS`. |
| Shared.FormatTimeRoundTrip | js/shared.js:21-25 | The display reads back as hours, total minutes and seconds within the minute. The seconds field is below 60. Minutes and seconds alone add up to the elapsed time, and the minutes field passes 59 exactly from one hour on. |
| Shared.ShortDurationForm | js/shared.js:21-25 | Under an hour, the two-digit minutes and seconds fields read back as seconds/60 and seconds%60. |
| Shared.FormatTimeShowsMinutesPastSixty | js/shared.js:22-24 | 3661 seconds shows as `01:61:01` and reads back as 1 hour, 61 minutes and 1 second, which add up to more than the elapsed time. |
| Shared.FormatClock | js/shared.js:20-25 | The corrected clock agrees with `formatTime` for every duration under an hour. |
| Shared.FormatClockRoundTrip | js/shared.js:20-25 | The corrected clock reads back as hours, minutes below 60 and seconds below 60, and these add up to the elapsed time. |
| Deck.CanDealSizes | js/game.js:129-145 | Every pick of the dealing loop finds a free cell (one pool id and two slots per couple, `index < cardsCount / 2` couples) exactly when the board size is 0, 2, 4, 6 or 8. |
| Deck.DealStep | js/game.js:136-145 | One iteration keeps the loop state. It uses a fresh pool id, puts that id into exactly two slots that were unset, and leaves every other slot alone. |
| Deck.DealUntilStuck | js/game.js:129-145 | The dealing loop on any size, run while its next iteration has room. On a dealable size it completes all its iterations with a finished deck. On any other size it stops before its last iteration, at one where no pool id is left, or no slot is left for the first card, or the one slot left leaves none for the second card. By `Shared.FirstFreeDraw`, a pick on a cell array without an unset cell never ends on any series of draws. |
| Deck.GetNewDeck | js/game.js:129-148 | On a dealable size, the deck has size² slots and `couplesCount` is half of that. Every slot holds an id from 1 to 37, and every id present appears exactly twice. |
| Deck.DeckShape | js/game.js:129-147 | Any finished deck has exactly size²/2 distinct faces, which is half its slots. Its size is one the dealing loop can finish. |
| Deck.NoDeckUnlessDealable | js/game.js:129-145 | No finished deck exists for a size the dealing loop cannot finish. |
| Scores.IsNewHighScore | js/game.js:283-290 | The store changes, and true is returned, exactly when there was no record for the size or the time is strictly lower. An equal time leaves the store as it was. The record for the size never gets slower. Other sizes are untouched. |
| Scores.RecordIsEarliestFastest | js/game.js:283-290 | After a series of games there is a record exactly when there was one before or some game was played. The record is at most every game's time and never slower than the old record. It is either the old record, or the first game that reached the minimum, which beat any old record strictly. This holds from an empty store as well. |
| Controls.StartButtonEnabled | js/game.js:90-97 | The start button is enabled exactly when the player name is non-empty and the size is even and between 2 and 8. |
| Controls.StartButtonGuardsDealing | js/game.js:90-97 | An enabled start button means a non-empty board that the dealing loop can finish. |
| Controls.KeydownAction | js/game.js:321-361 | The keyboard table as written. On the board, Enter plays exactly when paused, restarts exactly when neither paused nor playing, and is otherwise ignored. Escape pauses exactly when playing and otherwise shows the settings. On the best-score table, both keys show the board. On the settings panel, Enter starts a new game. Other keys do nothing. |
| Controls.GuardedKeydownAction | js/game.js:321-361 | The corrected table starts a new game only when the start button is enabled. It differs from the written table only there. |
| Session.Initial | js/game.js:19-30 | The page starts on the settings panel with no board and the clock stopped at zero. The session invariant holds. |
| Session.Play | js/game.js:64-71 | The game is playing, not paused, and the clock runs. The cards and the elapsed time are unchanged. |
| Session.Pause | js/game.js:58-62 | The game is paused and the clock stops. Whether it counts as playing is unchanged. The cards, including a pending flip-back, are unchanged. |
| Session.PauseThenPlayResumes | js/game.js:58-71 | Pausing a running game and then playing restores it exactly. |
| Session.Tick | js/game.js:192-194 | A tick adds one second exactly while the game is playing and not paused. Nothing else changes. |
| Session.InitGame | js/game.js:369-379 | A new deck is laid out with every card face down. There is no pending card and the matched count is 0. The game is neither playing nor paused, the clock is stopped at zero, and `couplesCount` is size²/2. |
| Session.NewGame | js/game.js:50-56 | The size comes from the form and the board shows. A fresh game starts on it: every card is face down, nothing is pending, no couple is matched, play has not started, the clock is at zero, and the records are kept. |
| Session.EndGame | js/game.js:270-281 | The game stops playing and the clock stops. The store changes exactly for a first or strictly faster time, and then the best-score table shows. The cards are unchanged. |
| Session.HandleMatch | js/game.js:245-256 | The matched count rises by exactly 1 and the pending card is cleared. The flip flags and the elapsed time are unchanged. Reaching `couplesCount` ends the game and offers its time to the records, with the outcome of `isNewHighScore`. Any other match lets play go on and leaves the records alone. |
| Session.EditForm | js/game.js:39-48 | Typing into the settings form changes the name and size fields and nothing else. The session invariant holds. |
| Session.HandleNoMatch | js/game.js:258-268 | Clicks are blocked and a flip-back of the given card is pending. Nothing else changes. |
| Session.Click | js/game.js:209-243 | While a flip-back is pending, a click changes nothing. Only a click that matches the last couple changes the records, and it stores what `isNewHighScore` decides for the elapsed time. Otherwise the game plays, even when the card is already up. A click on a face-up card keeps the pending card, the flags and the count. A first card becomes pending. A match adds one couple, clears the pending card, keeps both cards up, and stops play exactly on the last couple. A mismatch blocks clicks, keeps the count and leaves both cards up. |
| Session.Settle | js/game.js:262-267 | Exactly the two cards of the failed attempt turn face down. The pending card is cleared and clicks are accepted again. The count, the clock and the pause state are unchanged. |
| Session.MismatchThenSettleRestores | js/game.js:258-267 | A failed attempt followed by its flip-back restores the flags from before the attempt and gains no couple. |
| Session.SettleDespitePause | js/game.js:58-62 | The flip-back callback acts the same whether or not a pause came between: pausing and settling commute. |
| Session.MatchedNeverExceedsCouples | js/game.js:245-251 | In every valid session, the matched count is at most `couplesCount`. |
| Session.WinFlipsEveryCard | js/game.js:245-251 | When the matched count reaches `couplesCount`, every card is face up and nothing is pending. |
| Session.Apply | js/game.js:321-361 | Carrying out a table action keeps the session invariant. Showing the settings stops the clock. Showing a panel leaves the cards alone. |
| Session.KeyActionsAreReady | js/game.js:321-361 | With the keyboard table as written, a key never triggers a re-deal while a flip-back is pending, and the settings panel is requested only when no game is playing. A new game from a key finds a deck only when the form's size is one the dealing loop can finish. |
| Session.EscapeThenEnterResumes | js/game.js:328-350 | On a running board, Escape pauses, and Enter then resumes it exactly as it was. |
| Session.Step | js/game.js:209-268 | Every event keeps the session invariant. No event adds more than one couple. The records change only on a card click that matches the last couple. Events that neither click nor re-deal leave the deck and the count alone. The game buttons arrive only while shown: play and restart from `play` on, until `endGame` hides play and `initGame` hides both, and pause from `play` until it is pressed. |
| Session.Run | js/game.js:209-268 | After any series of events from a valid session, the session is valid and the matched count is at most `couplesCount`. |
| Session.MismatchScenario | js/game.js:209-267 | On deck [1,2,1,2], slots 0 and 1 fail and stay up until the flip-back. Then all cards are down, with no couple matched. |
| Session.TwoPairsScenario | js/game.js:209-290 | On deck [3,3,7,7], slots 0 and 1 match, and slots 2 and 3 finish the board. Play stops, the time becomes the size-2 record, and the best-score table shows. |
| Session.EnterBypassesStartButton | js/game.js:323-327 | In the session, Enter on the settings panel asks for a new game with an empty name and size 3. The start button refuses that size, and no deck exists for it. |
| Session.EnterDealsWithoutName | js/game.js:323-326 | In the session, Enter on the settings panel with an empty name and size 4 deals a 4x4 board, with no couple matched and play not started, although the start button is disabled. |
| Session.EnterRespectsStartButton | js/game.js:323-327 | With the corrected table, a key starts a new game only when the start button is enabled, so on a non-empty board the dealing loop can finish. |

## Left out

- Rendering, layout and card images (`createGameBoard`, `getNewCardElement`, the image helpers). These only build the page. A card element is a slot index here.
- Panel switching (`setView`, `setViewControls`, `initBestScoreTable`, `updateBestScoreTable`, `setBestScoreElement`). Only the current panel is kept, because the keyboard table depends on it.
- Sound playback. It has no effect on the state.
- Storage access. The best-score store is a map from board size to (seconds, player). Conversion between strings and numbers of stored values is not modelled. The writes of the player name and board size in `newGame` are left out. So is the read-back in `initSettingsView`: `showSettings` shows the settings panel through `setView`, which reloads the form from storage. A name typed but never started reverts, and an empty stored size comes back as 2 (`"" || DEFAULT_BOARD_SIZE`). The model keeps the form fields as last typed. For example, after Enter deals an empty board from an empty size field and Escape returns to the settings, the source deals 2x2 on the next Enter while the model deals an empty board again.
- `getRandomInt` and `Math.random`. Each pick is a nondeterministic choice of a free cell, or one of a given sequence of draws.
- The form's text. The board-size field is its numeric value (`Number(...)`). The one-character truncation of `boardSizeChanged` and non-numeric input (NaN) are not modelled.
- Timing and concurrency. The one-second wait in `stopTimer` makes `pause` set `isPaused` a second late. The unawaited `resetTimer` in `initGame` clears the seconds a second late when a game was playing. `endGame` waits 1.5 s before showing the best-score table. All three take effect at once here, so a click that arrives during those waits is not modelled.
- The timer is one on/off clock. When `play` runs while a timer is already active, the source starts a second interval and loses the handle of the first. The model keeps one clock.
- A restart or new game while a flip-back is pending. `InitGame`, `NewGame` and the restart and start events require that no flip-back is pending. No key press can cause this case (`Session.KeyActionsAreReady`). The Restart button can: `play` shows it, and a flip-back is pending only during play. In the source, `initGame` then clears `elPreviousCard`. The pending callback throws on the null `elPreviousCard` before it resets `isProcessing`. From then on, every card click returns at once, because nothing else clears the flag. The model does not follow the session into that stuck state.
- `Session.Click` takes only slots of the shown board. Cards exist only on the board panel, and a click comes from an existing card element.
- `Deck.GetNewDeck` has no error for a bad board size, because the source does not check the size there. Its precondition is that every pick can find a free cell. For other sizes, the source loops forever. The start button is the only check (`Controls.StartButtonEnabled`).
- `Shared.GetFreeIndex` requires an unset cell. On an empty array, the source returns 0, which is not an index. Dealing never picks from an empty array, because a size-0 board deals no couple.
- `Shared.Pad` returns text. For values above 9, the source returns the number itself, which concatenation then shows as its numeral.

## Findings

| source | as written | input that shows it | evidently intended | confidence | as-written member | corrected member |
|---|---|---|---|---|---|---|
| js/game.js:323-327 | Enter on the settings panel calls `newGame` without the start-button check | empty player name, board size 3: dealing makes 5 couples for 9 slots, so the tenth free-slot pick never returns (`Deck.DealUntilStuck`) | Enter acts as the start button and starts a game only when that button is enabled | medium, not executed | Session.EnterBypassesStartButton | Controls.GuardedKeydownAction |
| js/shared.js:21-25 | the minutes field is `seconds / 60`, not reduced modulo 60 | 3661 seconds shows as `01:61:01` | an `HH:MM:SS` clock with minutes below 60 | high, not executed | Shared.FormatTimeShowsMinutesPastSixty | Shared.FormatClockRoundTrip |

The session applies keys through the table as written (`Session.KeyAction`
is `Controls.KeydownAction`). The corrected table is
`Controls.GuardedKeydownAction`, and `Session.EnterRespectsStartButton`
proves what it would guarantee.
`Shared.FormatTime` stays as written, since it is what the page shows.
`Shared.FormatClock` is the corrected clock.

=== FILE: controls.dfy ===
/** The user-interface rules of js/game.js that decide what a form change or
    a key press leads to: the start-button availability and the keyboard
    table. The table yields the action to take; the session applies it. */
module Controls {
  import Deck

  /** The three panels of the page. */
  datatype View = Settings | Board | BestScoreTable

  /** The keys the keyboard handler distinguishes. */
  datatype Key = Enter | Escape | OtherKey

  /** What a key press asks for: `newGame`, `play`, `restart`, `pause`,
      `showSettings`, showing the board, or nothing. */
  datatype Action = StartNew | Resume | Redeal | Hold | ShowSettings | ShowBoard | NoAction

  /** The board sizes the settings form accepts. */
  const BoardSizes: seq<nat> := [2, 4, 6, 8]

  /** setStartButtonAvailability: the start button is enabled exactly when a
      player name is given and the board size is an even size from 2 to 8. */
  function StartButtonEnabled(playerName: string, boardSize: nat): (enabled: bool)
    ensures enabled <==> |playerName| > 0 && 2 <= boardSize <= 8 && boardSize % 2 == 0
  {
    !(|playerName| == 0 || boardSize !in BoardSizes)
  }

  /** An enabled start button always leads to a board the dealing loop can
      finish, and to a non-empty one. */
  lemma StartButtonGuardsDealing(playerName: string, boardSize: nat)
    requires StartButtonEnabled(playerName, boardSize)
    ensures Deck.CanDeal(boardSize) && boardSize > 0
  {
    Deck.CanDealSizes(boardSize);
  }

  /** handleKeydownEvent as written: Enter on the settings panel starts a new
      game whatever the form holds. */
  function KeydownAction(key: Key, view: View, isPaused: bool, isPlaying: bool): (a: Action)
    ensures key == OtherKey ==> a == NoAction
    ensures view == BestScoreTable && key != OtherKey ==> a == ShowBoard
    ensures view == Settings ==> (a == StartNew <==> key == Enter) && (key != Enter ==> a == NoAction)
    ensures view == Board && key == Enter ==>
              (a == Resume <==> isPaused) &&
              (a == Redeal <==> !isPaused && !isPlaying) &&
              (a == NoAction <==> !isPaused && isPlaying)
    ensures view == Board && key == Escape ==>
              (a == Hold <==> isPlaying) && (a == ShowSettings <==> !isPlaying)
  {
    match key
    case Enter =>
      (match view
       case Settings => StartNew
       case Board => if isPaused then Resume else if !isPlaying then Redeal else NoAction
       case BestScoreTable => ShowBoard)
    case Escape =>
      (match view
       case Settings => NoAction
       case Board => if isPlaying then Hold else ShowSettings
       case BestScoreTable => ShowBoard)
    case OtherKey => NoAction
  }

  /** The keyboard table with Enter on the settings panel acting as the start
      button: it starts a game only when the button is enabled. Every other
      entry is the table as written. */
  function GuardedKeydownAction(key: Key, view: View, isPaused: bool, isPlaying: bool,
                                startEnabled: bool): (a: Action)
    ensures a == StartNew ==> startEnabled && key == Enter && view == Settings
    ensures a != KeydownAction(key, view, isPaused, isPlaying) ==>
              key == Enter && view == Settings && !startEnabled && a == NoAction
  {
    if key == Enter && view == Settings && !startEnabled then NoAction
    else KeydownAction(key, view, isPaused, isPlaying)
  }
}

=== FILE: deck.dfy ===
/** Deck generation (`getNewDeck` in js/game.js): a board of boardSize²
    slots, each card face dealt into exactly two slots. A slot holding 0 is
    unset; card ids run from 1 to AvailableCardsCount. */
module Deck {
  import Shared

  /** Number of distinct card faces in the pool. */
  const AvailableCardsCount: nat := 37

  /** Iterations of the dealing loop `index < cardsCount / 2`, whose bound
      is a real (JavaScript) division: the ceiling of boardSize² / 2. */
  function DealtCouples(boardSize: nat): nat
  {
    (boardSize * boardSize + 1) / 2
  }

  /** Every free-cell pick of the dealing loop has a free cell to find:
      two slots per iteration and one pool id per iteration. When this
      fails, some pick finds no free cell (`DealUntilStuck`). */
  predicate CanDeal(boardSize: nat)
  {
    2 * DealtCouples(boardSize) <= boardSize * boardSize &&
    DealtCouples(boardSize) <= AvailableCardsCount
  }

  /** A finished deck: every slot filled with a pool id, each id present
      exactly twice. */
  predicate IsDeck(deck: seq<int>, boardSize: nat)
  {
    && |deck| == boardSize * boardSize
    && (forall k :: 0 <= k < |deck| ==> 1 <= deck[k] <= AvailableCardsCount)
    && (forall k :: 0 <= k < |deck| ==> multiset(deck)[deck[k]] == 2)
  }

  /** The distinct card faces of a deck. */
  function Ids(deck: seq<int>): set<int>
  {
    set k | 0 <= k < |deck| :: deck[k]
  }

  lemma SquareAtLeastEightyOne(n: nat)
    requires n >= 9
    ensures n * n >= 81
  {
    assert n * n >= 9 * n;
  }

  /** The board sizes the dealing loop can finish on are exactly the even
      ones up to 8 (0 included: an empty board). */
  lemma CanDealSizes(boardSize: nat)
    ensures CanDeal(boardSize) <==> boardSize in {0, 2, 4, 6, 8}
  {
    if boardSize >= 9 {
      SquareAtLeastEightyOne(boardSize);
    } else {
      assert boardSize in {0, 1, 2, 3, 4, 5, 6, 7, 8};
    }
  }

  /** The state of the dealing loop after `dealt` iterations: `dealt` pool
      ids are used, each placed in exactly two slots, and every other slot
      is still unset. */
  predicate Dealing(deck: seq<int>, cardIds: seq<bool>, cardsCount: nat, dealt: nat)
  {
    && dealt <= AvailableCardsCount && 2 * dealt <= cardsCount
    && |deck| == cardsCount && |cardIds| == AvailableCardsCount
    && multiset(cardIds)[false] == AvailableCardsCount - dealt
    && multiset(deck)[0] == cardsCount - 2 * dealt
    && (forall k :: 0 <= k < |deck| ==> 0 <= deck[k] <= AvailableCardsCount)
    && (forall k :: 0 <= k < |deck| && deck[k] != 0 ==> cardIds[deck[k] - 1])
    && (forall id :: 0 <= id < |cardIds| && cardIds[id] ==> multiset(deck)[id + 1] == 2)
  }

  /** One iteration of the dealing loop keeps its state consistent. */
  lemma DealStep(deck: seq<int>, cardIds: seq<bool>, cardsCount: nat, dealt: nat,
                 cardId: nat, first: nat, second: nat)
    requires Dealing(deck, cardIds, cardsCount, dealt)
    requires cardId < |cardIds| && !cardIds[cardId]
    requires first < |deck| && deck[first] == 0
    requires second < |deck| && deck[first := cardId + 1][second] == 0
    requires dealt < AvailableCardsCount && 2 * dealt + 2 <= cardsCount
    ensures Dealing(deck[first := cardId + 1][second := cardId + 1], cardIds[cardId := true],
                    cardsCount, dealt + 1)
  {
    var card := cardId + 1;
    var deck1 := deck[first := card];
    var deck2 := deck1[second := card];
    var ids := cardIds[cardId := true];
    assert card !in deck;
    assert multiset(deck)[card] == 0;
    ReplaceCell(cardIds, cardId, true);
    ReplaceCell(deck, first, card);
    ReplaceCell(deck1, second, card);
    assert multiset(deck2)[card] == 2;
    assert multiset(deck2)[0] == cardsCount - 2 * (dealt + 1);
    forall id | 0 <= id < |ids| && ids[id]
      ensures multiset(deck2)[id + 1] == 2
    {
      if id != cardId {
        assert cardIds[id];
      }
    }
    assert multiset(ids)[false] == AvailableCardsCount - (dealt + 1);
    forall k | 0 <= k < |deck2|
      ensures 0 <= deck2[k] <= AvailableCardsCount
      ensures deck2[k] != 0 ==> ids[deck2[k] - 1]
    {
      if deck2[k] != card {
        assert deck2[k] == deck[k];
      }
    }
  }

  /** A dealable board has an even number of slots and no more couples
      than pool ids. */
  lemma DealableCouples(boardSize: nat)
    requires CanDeal(boardSize)
    ensures 2 * (boardSize * boardSize / 2) == boardSize * boardSize
    ensures boardSize * boardSize / 2 <= AvailableCardsCount
  {
  }

  /** Before an iteration there is an unused pool id and there are two unset
      slots, so every pick of the iteration finds a free cell. */
  lemma DealingHasRoom(deck: seq<int>, cardIds: seq<bool>, cardsCount: nat, dealt: nat)
    requires Dealing(deck, cardIds, cardsCount, dealt)
    requires dealt < AvailableCardsCount && 2 * dealt + 2 <= cardsCount
    ensures false in cardIds && 0 in deck
    ensures multiset(deck)[0] >= 2
  {
    assert false in multiset(cardIds);
    assert 0 in multiset(deck);
  }

  /** Once every slot is dealt, the loop state is a finished deck. */
  lemma DealingDone(deck: seq<int>, cardIds: seq<bool>, boardSize: nat, dealt: nat)
    requires Dealing(deck, cardIds, boardSize * boardSize, dealt)
    requires 2 * dealt == boardSize * boardSize
    ensures IsDeck(deck, boardSize)
  {
    assert 0 !in multiset(deck);
    forall k | 0 <= k < |deck|
      ensures 1 <= deck[k] <= AvailableCardsCount && multiset(deck)[deck[k]] == 2
    {
      assert deck[k] in multiset(deck);
      assert cardIds[deck[k] - 1];
    }
  }

  /** getNewDeck: pick an unused pool id per couple, then drop two copies of
      it into free slots; every pick is a free-cell choice. */
  method GetNewDeck(boardSize: nat) returns (deck: seq<int>, couplesCount: nat)
    requires CanDeal(boardSize)
    ensures IsDeck(deck, boardSize)
    ensures 2 * couplesCount == |deck| == boardSize * boardSize
  {
    var cardsCount := boardSize * boardSize;
    couplesCount := cardsCount / 2;
    DealableCouples(boardSize);
    deck := Shared.Fill(cardsCount, 0);
    var cardIds := Shared.Fill(AvailableCardsCount, false);
    var index := 0;
    while index < couplesCount
      invariant index <= couplesCount
      invariant Dealing(deck, cardIds, cardsCount, index)
    {
      DealingHasRoom(deck, cardIds, cardsCount, index);
      var cardId := Shared.GetFreeIndex(cardIds, false);
      var firstCardIndex := Shared.GetFreeIndex(deck, 0);
      ReplaceCell(deck, firstCardIndex, cardId + 1);
      assert 0 in multiset(deck[firstCardIndex := cardId + 1]);
      var secondCardIndex := Shared.GetFreeIndex(deck[firstCardIndex := cardId + 1], 0);
      DealStep(deck, cardIds, cardsCount, index, cardId, firstCardIndex, secondCardIndex);
      cardIds := cardIds[cardId := true];
      deck := deck[firstCardIndex := cardId + 1][secondCardIndex := cardId + 1];
      index := index + 1;
    }
    DealingDone(deck, cardIds, boardSize, index);
  }

  /** The dealing loop of getNewDeck on any board size, run for as long as
      its next iteration still has a free cell for each of its picks. On a
      dealable size it completes every iteration and the deck is finished.
      On any other size it stops before its last iteration, at one whose
      picks cannot all succeed: no pool id is left, or no slot is left for
      the first card, or the one slot left takes the first card and none
      remains for the second. */
  method DealUntilStuck(boardSize: nat) returns (deck: seq<int>, cardIds: seq<bool>, dealt: nat)
    ensures Dealing(deck, cardIds, boardSize * boardSize, dealt)
    ensures dealt <= DealtCouples(boardSize)
    ensures CanDeal(boardSize) ==> dealt == DealtCouples(boardSize) && IsDeck(deck, boardSize)
    ensures !CanDeal(boardSize) ==>
              dealt < DealtCouples(boardSize) &&
              (|| false !in cardIds
               || 0 !in deck
               || forall i :: 0 <= i < |deck| && deck[i] == 0 ==> 0 !in deck[i := dealt + 1])
  {
    var cardsCount := boardSize * boardSize;
    deck := Shared.Fill(cardsCount, 0);
    cardIds := Shared.Fill(AvailableCardsCount, false);
    dealt := 0;
    while dealt < DealtCouples(boardSize) && dealt < AvailableCardsCount && 2 * dealt + 2 <= cardsCount
      invariant dealt <= DealtCouples(boardSize)
      invariant Dealing(deck, cardIds, cardsCount, dealt)
    {
      DealingHasRoom(deck, cardIds, cardsCount, dealt);
      var cardId := Shared.GetFreeIndex(cardIds, false);
      var firstCardIndex := Shared.GetFreeIndex(deck, 0);
      ReplaceCell(deck, firstCardIndex, cardId + 1);
      assert 0 in multiset(deck[firstCardIndex := cardId + 1]);
      var secondCardIndex := Shared.GetFreeIndex(deck[firstCardIndex := cardId + 1], 0);
      DealStep(deck, cardIds, cardsCount, dealt, cardId, firstCardIndex, secondCardIndex);
      cardIds := cardIds[cardId := true];
      deck := deck[firstCardIndex := cardId + 1][secondCardIndex := cardId + 1];
      dealt := dealt + 1;
    }
    if CanDeal(boardSize) {
      DealableCouples(boardSize);
      DealingDone(deck, cardIds, boardSize, dealt);
    } else {
      StuckIteration(deck, cardIds, cardsCount, dealt);
    }
  }

  /** When the loop state has no room for a further iteration, one of its
      picks finds no free cell. */
  lemma StuckIteration(deck: seq<int>, cardIds: seq<bool>, cardsCount: nat, dealt: nat)
    requires Dealing(deck, cardIds, cardsCount, dealt)
    requires dealt == AvailableCardsCount || 2 * dealt + 2 > cardsCount
    ensures || false !in cardIds
            || 0 !in deck
            || forall i :: 0 <= i < |deck| && deck[i] == 0 ==> 0 !in deck[i := dealt + 1]
  {
    if dealt == AvailableCardsCount {
      assert false !in multiset(cardIds);
    } else if 0 in deck {
      assert multiset(deck)[0] == 1;
      forall i | 0 <= i < |deck| && deck[i] == 0
        ensures 0 !in deck[i := dealt + 1]
      {
        ReplaceCell(deck, i, dealt + 1);
        assert 0 !in multiset(deck[i := dealt + 1]);
      }
    }
  }

  /** Overwriting one cell moves one count from its old value to the new one. */
  lemma ReplaceCell<T>(s: seq<T>, i: nat, v: T)
    requires i < |s| && s[i] != v
    ensures multiset(s[i := v])[s[i]] == multiset(s)[s[i]] - 1
    ensures multiset(s[i := v])[v] == multiset(s)[v] + 1
    ensures forall u :: u != s[i] && u != v ==> multiset(s[i := v])[u] == multiset(s)[u]
  {
    assert multiset(s[i := v]) == multiset(s) - multiset{s[i]} + multiset{v};
  }

  lemma {:induction false} PairedCardinality<T>(m: multiset<T>)
    requires forall x :: x in m ==> m[x] == 2
    ensures |m| == 2 * |set x | x in m|
    decreases |m|
  {
    if |m| == 0 {
      assert (set x | x in m) == {};
    } else {
      var x :| x in m;
      var rest := m[x := 0];
      assert m == rest + multiset{x, x};
      assert (set y | y in m) == (set y | y in rest) + {x};
      PairedCardinality(rest);
    }
  }

  /** The ids 1..n. */
  function Pool(n: nat): (ids: set<int>)
    ensures |ids| == n
    ensures forall x :: x in ids <==> 1 <= x <= n
  {
    if n == 0 then {} else Pool(n - 1) + {n}
  }

  lemma SubsetCardinality<T>(a: set<T>, b: set<T>)
    requires a <= b
    ensures |a| <= |b|
  {
    assert b == a + (b - a);
  }

  /** The shape of any finished deck: exactly half as many distinct faces as
      slots, all from the pool, so that only dealable sizes have decks. */
  lemma DeckShape(deck: seq<int>, boardSize: nat)
    requires IsDeck(deck, boardSize)
    ensures 2 * |Ids(deck)| == |deck|
    ensures |Ids(deck)| == boardSize * boardSize / 2
    ensures CanDeal(boardSize)
  {
    var m := multiset(deck);
    assert forall x :: x in m ==> m[x] == 2 by {
      forall x | x in m
        ensures m[x] == 2
      {
        assert x in deck;
      }
    }
    forall x
      ensures x in m <==> x in Ids(deck)
    {
      if x in m {
        assert x in deck;
        var k :| 0 <= k < |deck| && deck[k] == x;
      }
    }
    assert (set x | x in m) == Ids(deck);
    PairedCardinality(m);
    SubsetCardinality(Ids(deck), Pool(AvailableCardsCount));
    var couples := |Ids(deck)|;
    var cards := boardSize * boardSize;
    assert 2 * couples == cards;
    assert cards / 2 == couples && (cards + 1) / 2 == couples;
    assert DealtCouples(boardSize) == couples;
  }

  /** No deck exists for a board size the dealing loop cannot finish. */
  lemma NoDeckUnlessDealable(boardSize: nat)
    requires !CanDeal(boardSize)
    ensures forall deck :: !IsDeck(deck, boardSize)
  {
    forall deck | IsDeck(deck, boardSize)
      ensures false
    {
      DeckShape(deck, boardSize);
    }
  }
}

=== FILE: optional.dfy ===
/** An optional value, standing in for the source's `null` references. */
module Optional {

  datatype Option<+T> = None | Some(value: T)

}

=== FILE: scores.dfy ===
/** The best-time record (`isNewHighScore` in js/game.js): one best time and
    its player per board size, kept in the browser's storage, which is
    modelled here as a map from board size to record. */
module Scores {

  datatype Score = Score(seconds: nat, player: string)

  type Store = map<nat, Score>

  /** What `isNewHighScore` answers, and the store after it. */
  datatype Verdict = Verdict(isNew: bool, store: Store)

  /** isNewHighScore: a finished game sets the record for its board size
      when there is none yet or when it was strictly faster; an equal time
      keeps the older record. Only a new record writes the store. */
  function IsNewHighScore(store: Store, boardSize: nat, seconds: nat, player: string): (r: Verdict)
    ensures r.isNew <==> r.store != store
    ensures boardSize in r.store && r.store[boardSize].seconds <= seconds
    ensures boardSize in store ==> r.store[boardSize].seconds <= store[boardSize].seconds
    ensures boardSize in store && seconds == store[boardSize].seconds ==> r.store == store
    ensures r.isNew ==> r.store[boardSize] == Score(seconds, player)
    ensures r.store.Keys == store.Keys + {boardSize}
    ensures forall size :: size in store && size != boardSize ==> r.store[size] == store[size]
  {
    if boardSize !in store || seconds < store[boardSize].seconds then
      Verdict(true, store[boardSize := Score(seconds, player)])
    else Verdict(false, store)
  }

  /** The store after a series of finished games on one board size. */
  function Record(store: Store, boardSize: nat, games: seq<Score>): Store
    decreases |games|
  {
    if |games| == 0 then store
    else
      var next := IsNewHighScore(store, boardSize, games[0].seconds, games[0].player).store;
      Record(next, boardSize, games[1..])
  }

  /** After a series of games the record is the fastest time, and among
      equally fast games the earliest one: either the record held before
      survives (no game beat it) or it is the first game that reached the
      minimum. With no record before, a single game is enough to set one. */
  lemma {:induction false} RecordIsEarliestFastest(store: Store, boardSize: nat, games: seq<Score>)
    ensures var r := Record(store, boardSize, games);
            (boardSize in r <==> boardSize in store || |games| > 0) &&
            (boardSize in r ==> forall j :: 0 <= j < |games| ==> r[boardSize].seconds <= games[j].seconds) &&
            (boardSize in store ==> r[boardSize].seconds <= store[boardSize].seconds) &&
            (boardSize in r ==>
               (boardSize in store && r[boardSize] == store[boardSize]) ||
               (exists j :: 0 <= j < |games| && r[boardSize] == games[j] &&
                  (boardSize in store ==> games[j].seconds < store[boardSize].seconds) &&
                  forall i :: 0 <= i < j ==> games[i].seconds > games[j].seconds))
    decreases |games|
  {
    if |games| > 0 {
      var next := IsNewHighScore(store, boardSize, games[0].seconds, games[0].player).store;
      RecordIsEarliestFastest(next, boardSize, games[1..]);
      var r := Record(store, boardSize, games);
      assert r == Record(next, boardSize, games[1..]);
      forall j | 1 <= j < |games|
        ensures r[boardSize].seconds <= games[j].seconds
      {
        assert games[j] == games[1..][j - 1];
      }
      if r[boardSize] != next[boardSize] {
        var j :| 0 <= j < |games[1..]| && r[boardSize] == games[1..][j] &&
                 games[1..][j].seconds < next[boardSize].seconds &&
                 forall i :: 0 <= i < j ==> games[1..][i].seconds > games[1..][j].seconds;
        assert r[boardSize] == games[j + 1];
        forall i | 0 <= i < j + 1
          ensures games[i].seconds > games[j + 1].seconds
        {
          if i > 0 {
            assert games[i] == games[1..][i - 1];
          }
        }
      } else if boardSize !in store || next[boardSize] != store[boardSize] {
        assert next != store;
        assert r[boardSize] == games[0];
      }
    }
  }
}

=== FILE: session.dfy ===
/** The game session of js/game.js as a state machine. Card elements are
    slot indices into the deck, a slot's `flipped` class is a flag, the
    pending first card (`elPreviousCard`) is an optional slot, and the
    one-second flip-back after a mismatch is a separate `Settle` event whose
    pending callback remembers the second card. The per-second timer is an
    on/off flag advanced by `Tick` events. */
module Session {
  import opened Optional
  import Shared
  import Deck
  import Scores
  import opened Controls

  /** The board size the page starts with. */
  const DefaultBoardSize: nat := 2

  datatype Game = Game(
    view: View,
    playerName: string,       // the settings form's player name
    sizeField: nat,           // the settings form's board size, as a number
    boardSize: nat,
    couplesCount: nat,
    deck: seq<int>,
    flipped: seq<bool>,
    previous: Option<nat>,    // the first card of the current attempt
    settling: Option<nat>,    // the second card a pending flip-back holds
    flippedCouples: nat,
    isPlaying: bool,
    isPaused: bool,
    isProcessing: bool,
    timerOn: bool,
    seconds: nat,
    scores: Scores.Store)

  // ---------------------------------------------------------------------
  // Counting face-up cards
  // ---------------------------------------------------------------------

  function CountTrue(flags: seq<bool>): (n: nat)
    ensures n <= |flags|
  {
    if |flags| == 0 then 0
    else CountTrue(flags[..|flags| - 1]) + (if flags[|flags| - 1] then 1 else 0)
  }

  lemma {:induction false} CountTrueUpdate(flags: seq<bool>, i: nat, v: bool)
    requires i < |flags|
    ensures CountTrue(flags[i := v]) ==
            CountTrue(flags) - (if flags[i] then 1 else 0) + (if v then 1 else 0)
    decreases |flags|
  {
    var n := |flags|;
    var updated := flags[i := v];
    if i == n - 1 {
      assert updated[..n - 1] == flags[..n - 1];
    } else {
      assert updated[..n - 1] == flags[..n - 1][i := v];
      CountTrueUpdate(flags[..n - 1], i, v);
    }
  }

  lemma {:induction false} CountTrueNone(flags: seq<bool>)
    requires forall k :: 0 <= k < |flags| ==> !flags[k]
    ensures CountTrue(flags) == 0
    decreases |flags|
  {
    if |flags| > 0 {
      CountTrueNone(flags[..|flags| - 1]);
    }
  }

  lemma {:induction false} CountTrueAll(flags: seq<bool>)
    requires CountTrue(flags) == |flags|
    ensures forall k :: 0 <= k < |flags| ==> flags[k]
    decreases |flags|
  {
    if |flags| > 0 {
      var prefix := flags[..|flags| - 1];
      CountTrueAll(prefix);
      assert forall k :: 0 <= k < |flags| - 1 ==> flags[k] == prefix[k];
    }
  }

  // ---------------------------------------------------------------------
  // The session invariant
  // ---------------------------------------------------------------------

  /** What every reachable session satisfies: one flag per slot and two slots
      per couple; the pending card and the card a flip-back holds are
      distinct face-up slots; the face-up cards are the matched couples plus
      those two; the clock runs exactly while playing and not paused; and a
      flip-back is pending only during play on the board. */
  predicate Valid(g: Game)
  {
    && |g.flipped| == |g.deck| == 2 * g.couplesCount
    && (g.previous.Some? ==> g.previous.value < |g.deck| && g.flipped[g.previous.value])
    && (g.isProcessing <==> g.settling.Some?)
    && (g.settling.Some? ==>
          && g.previous.Some?
          && g.settling.value < |g.deck|
          && g.settling.value != g.previous.value
          && g.flipped[g.settling.value])
    && CountTrue(g.flipped) ==
         2 * g.flippedCouples
         + (if g.previous.Some? then 1 else 0)
         + (if g.settling.Some? then 1 else 0)
    && (g.timerOn <==> g.isPlaying && !g.isPaused)
    && (g.isProcessing ==> g.isPlaying && g.view == Board)
  }

  /** The card state of two sessions agrees. */
  predicate SameBoard(a: Game, b: Game)
  {
    && a.couplesCount == b.couplesCount
    && a.deck == b.deck
    && a.flipped == b.flipped
    && a.previous == b.previous
    && a.settling == b.settling
    && a.flippedCouples == b.flippedCouples
    && a.isProcessing == b.isProcessing
  }

  /** The matched-couple counter never passes the number of couples. */
  lemma MatchedNeverExceedsCouples(g: Game)
    requires Valid(g)
    ensures g.flippedCouples <= g.couplesCount
  {
  }

  /** A won board has every card face up and nothing pending. */
  lemma WinFlipsEveryCard(g: Game)
    requires Valid(g) && g.flippedCouples == g.couplesCount
    ensures forall k :: 0 <= k < |g.flipped| ==> g.flipped[k]
    ensures g.previous.None? && !g.isProcessing
  {
    CountTrueAll(g.flipped);
  }

  // ---------------------------------------------------------------------
  // Page start, play, pause, timer
  // ---------------------------------------------------------------------

  /** The page after loading: the settings panel, no board, the clock
      stopped at zero; the form and the records come from storage. */
  function Initial(playerName: string, sizeField: nat, scores: Scores.Store): (r: Game)
    ensures Valid(r)
    ensures r.view == Settings && r.deck == [] && !r.isPlaying && r.seconds == 0
  {
    Game(Settings, playerName, sizeField, DefaultBoardSize, 0, [], [], None, None, 0,
         false, false, false, false, 0, scores)
  }

  /** play: the game runs and the clock starts; the cards are untouched. */
  function Play(g: Game): (r: Game)
    requires Valid(g)
    ensures Valid(r)
    ensures r.isPlaying && !r.isPaused && r.timerOn
    ensures SameBoard(r, g) && r.view == g.view && r.seconds == g.seconds && r.scores == g.scores
  {
    g.(isPlaying := true, isPaused := false, timerOn := true)
  }

  /** pause: the clock stops and the game is paused; whether it counts as
      playing is unchanged, and so are the cards, including a pending
      flip-back. */
  function Pause(g: Game): (r: Game)
    requires Valid(g)
    ensures Valid(r)
    ensures r.isPaused && !r.timerOn && r.isPlaying == g.isPlaying
    ensures SameBoard(r, g) && r.view == g.view && r.seconds == g.seconds && r.scores == g.scores
  {
    g.(isPaused := true, timerOn := false)
  }

  /** One tick of the interval timer: a second passes on a running clock. */
  function Tick(g: Game): (r: Game)
    requires Valid(g)
    ensures Valid(r)
    ensures r.seconds == g.seconds + (if g.isPlaying && !g.isPaused then 1 else 0)
    ensures r.(seconds := g.seconds) == g
  {
    if g.timerOn then g.(seconds := g.seconds + 1) else g
  }

  /** Pausing a running game and playing again restores it exactly. */
  lemma PauseThenPlayResumes(g: Game)
    requires Valid(g) && g.isPlaying && !g.isPaused
    ensures Play(Pause(g)) == g
  {
  }

  // ---------------------------------------------------------------------
  // initGame, newGame, endGame
  // ---------------------------------------------------------------------

  /** initGame: a fresh board from a newly dealt deck, every card face down,
      no pending card, no matched couple, the clock stopped at zero and the
      game neither playing nor paused. */
  function InitGame(g: Game, deck: seq<int>): (r: Game)
    requires Valid(g) && !g.isProcessing && Deck.IsDeck(deck, g.boardSize)
    ensures Valid(r)
    ensures r.deck == deck && |r.flipped| == |deck|
    ensures forall k :: 0 <= k < |r.flipped| ==> !r.flipped[k]
    ensures r.previous.None? && r.flippedCouples == 0 && !r.isProcessing
    ensures !r.isPlaying && !r.isPaused && !r.timerOn && r.seconds == 0
    ensures 2 * r.couplesCount == g.boardSize * g.boardSize
    ensures r.view == g.view && r.boardSize == g.boardSize && r.scores == g.scores
  {
    Deck.DeckShape(deck, g.boardSize);
    var flipped := Shared.Fill(|deck|, false);
    CountTrueNone(flipped);
    g.(couplesCount := |deck| / 2, deck := deck, flipped := flipped, previous := None,
       flippedCouples := 0, isPlaying := false, isPaused := false, timerOn := false, seconds := 0)
  }

  /** newGame: the board size is taken from the form, the board is shown and
      a new game is set up on it. */
  function NewGame(g: Game, deck: seq<int>): (r: Game)
    requires Valid(g) && !g.isProcessing && Deck.IsDeck(deck, g.sizeField)
    ensures Valid(r)
    ensures r.view == Board && r.boardSize == g.sizeField
    ensures r.deck == deck && 2 * r.couplesCount == |deck|
    ensures forall k :: 0 <= k < |r.flipped| ==> !r.flipped[k]
    ensures r.previous.None? && !r.isProcessing
    ensures r.flippedCouples == 0 && !r.isPlaying && r.seconds == 0
    ensures r.scores == g.scores
  {
    InitGame(g.(boardSize := g.sizeField, view := Board), deck)
  }

  /** endGame: the clock stops and the game is over; the time is offered to
      the records, and a new record brings up the best-score table. */
  function EndGame(g: Game): (r: Game)
    ensures !r.isPlaying && !r.timerOn
    ensures SameBoard(r, g) && r.seconds == g.seconds && r.isPaused == g.isPaused
    ensures g.boardSize in r.scores && r.scores[g.boardSize].seconds <= g.seconds
    ensures r.scores != g.scores <==>
              g.boardSize !in g.scores || g.seconds < g.scores[g.boardSize].seconds
    ensures r.view == (if r.scores != g.scores then BestScoreTable else g.view)
  {
    var verdict := Scores.IsNewHighScore(g.scores, g.boardSize, g.seconds, g.playerName);
    g.(timerOn := false, isPlaying := false, scores := verdict.store,
       view := if verdict.isNew then BestScoreTable else g.view)
  }

  // ---------------------------------------------------------------------
  // cardClicked, handleMatch, handleNoMatch and the flip-back
  // ---------------------------------------------------------------------

  /** handleMatch: one more matched couple and no pending card; matching the
      last couple ends the game. */
  function HandleMatch(g: Game): (r: Game)
    ensures r.flippedCouples == g.flippedCouples + 1 && r.previous.None?
    ensures r.deck == g.deck && r.flipped == g.flipped && r.couplesCount == g.couplesCount
    ensures r.flippedCouples == g.couplesCount ==>
              r.scores == Scores.IsNewHighScore(g.scores, g.boardSize, g.seconds, g.playerName).store
    ensures r.flippedCouples != g.couplesCount ==> r.scores == g.scores
    ensures r.seconds == g.seconds
    ensures r.settling == g.settling && r.isProcessing == g.isProcessing
    ensures r.flippedCouples == g.couplesCount ==> !r.isPlaying && !r.timerOn
    ensures r.flippedCouples != g.couplesCount ==>
              r.isPlaying == g.isPlaying && r.timerOn == g.timerOn && r.view == g.view
    ensures r.isPaused == g.isPaused
  {
    var matched := g.(flippedCouples := g.flippedCouples + 1, previous := None);
    if matched.flippedCouples == matched.couplesCount then EndGame(matched) else matched
  }

  /** handleNoMatch: clicks are blocked until the flip-back, which will turn
      the given card and the pending one face down again. */
  function HandleNoMatch(g: Game, slot: nat): (r: Game)
    ensures r.isProcessing && r.settling == Some(slot)
    ensures r.deck == g.deck && r.flipped == g.flipped && r.previous == g.previous
    ensures r.flippedCouples == g.flippedCouples
    ensures r.(isProcessing := g.isProcessing, settling := g.settling) == g
  {
    g.(isProcessing := true, settling := Some(slot))
  }

  /** The click on `slot` turns it up as the second card of an attempt whose
      pending card shows the same face. */
  predicate IsMatch(g: Game, slot: nat)
  {
    && slot < |g.deck| && slot < |g.flipped|
    && !g.isProcessing && !g.flipped[slot]
    && g.previous.Some? && g.previous.value < |g.deck|
    && g.deck[g.previous.value] == g.deck[slot]
  }

  /** The click on `slot` turns it up as the second card of an attempt whose
      pending card shows another face. */
  predicate IsMismatch(g: Game, slot: nat)
  {
    && slot < |g.deck| && slot < |g.flipped|
    && !g.isProcessing && !g.flipped[slot]
    && g.previous.Some? && g.previous.value < |g.deck|
    && g.deck[g.previous.value] != g.deck[slot]
  }

  /** cardClicked. While a flip-back is pending nothing happens. Otherwise a
      paused or stopped game starts playing first; a face-up card then
      changes nothing more (so the pending card cannot match itself); a face-
      down card turns up and becomes the pending card, or completes the
      attempt as a match or a mismatch. */
  function Click(g: Game, slot: nat): (r: Game)
    requires Valid(g) && g.view == Board && slot < |g.deck|
    ensures Valid(r)
    ensures g.isProcessing ==> r == g
    ensures !g.isProcessing ==> r.deck == g.deck && r.seconds == g.seconds
    ensures !g.isProcessing && g.flipped[slot] ==>
              r.previous == g.previous && r.flipped == g.flipped &&
              r.flippedCouples == g.flippedCouples && r.isPlaying && !r.isPaused
    ensures !g.isProcessing && !g.flipped[slot] && g.previous.None? ==>
              r.previous == Some(slot) && r.flipped == g.flipped[slot := true] &&
              r.flippedCouples == g.flippedCouples && r.isPlaying && !r.isPaused
    ensures IsMatch(g, slot) ==>
              r.flippedCouples == g.flippedCouples + 1 && r.previous.None? &&
              r.flipped == g.flipped[slot := true] &&
              r.flipped[slot] && r.flipped[g.previous.value] &&
              (r.isPlaying <==> r.flippedCouples < r.couplesCount) &&
              (r.flippedCouples == r.couplesCount ==>
                 r.scores == Scores.IsNewHighScore(g.scores, g.boardSize, g.seconds, g.playerName).store)
    ensures r.scores != g.scores ==> IsMatch(g, slot) && r.flippedCouples == r.couplesCount
    ensures IsMismatch(g, slot) ==>
              r.isProcessing && r.settling == Some(slot) && r.previous == g.previous &&
              r.flipped == g.flipped[slot := true] && r.flippedCouples == g.flippedCouples
  {
    if g.isProcessing then g
    else
      var started := if g.isPaused || !g.isPlaying then Play(g) else g;
      if started.flipped[slot] then started
      else
        CountTrueUpdate(started.flipped, slot, true);
        var turned := started.(flipped := started.flipped[slot := true]);
        match turned.previous
        case None => turned.(previous := Some(slot))
        case Some(first) =>
          if turned.deck[first] == turned.deck[slot] then HandleMatch(turned)
          else HandleNoMatch(turned, slot)
  }

  /** The flip-back callback: exactly the two cards of the failed attempt
      turn face down, the pending card is cleared and clicks are accepted
      again. Pausing does not cancel it. */
  function Settle(g: Game): (r: Game)
    requires Valid(g) && g.settling.Some?
    ensures Valid(r)
    ensures !r.isProcessing && r.settling.None? && r.previous.None?
    ensures |r.flipped| == |g.flipped|
    ensures forall k :: 0 <= k < |r.flipped| ==>
              (r.flipped[k] <==> g.flipped[k] && k != g.settling.value && k != g.previous.value)
    ensures r.flippedCouples == g.flippedCouples && r.deck == g.deck
    ensures r.isPlaying == g.isPlaying && r.isPaused == g.isPaused && r.timerOn == g.timerOn
    ensures r.view == g.view && r.seconds == g.seconds && r.scores == g.scores
  {
    var second := g.settling.value;
    var first := g.previous.value;
    CountTrueUpdate(g.flipped, second, false);
    CountTrueUpdate(g.flipped[second := false], first, false);
    g.(flipped := g.flipped[second := false][first := false],
       previous := None, settling := None, isProcessing := false)
  }

  /** A failed attempt followed by its flip-back leaves the cards as they
      were before the attempt, with no matched couple gained. */
  lemma MismatchThenSettleRestores(g: Game, a: nat, b: nat)
    requires Valid(g) && g.view == Board && !g.isProcessing && g.previous.None?
    requires a < |g.deck| && b < |g.deck| && !g.flipped[a] && !g.flipped[b]
    requires g.deck[a] != g.deck[b]
    ensures var once := Click(g, a);
            var twice := Click(once, b);
            twice.isProcessing &&
            Settle(twice).flipped == g.flipped &&
            Settle(twice).previous.None? && !Settle(twice).isProcessing &&
            Settle(twice).flippedCouples == g.flippedCouples
  {
    var once := Click(g, a);
    assert a != b;
    assert IsMismatch(once, b);
    var twice := Click(once, b);
    var back := Settle(twice);
    assert |back.flipped| == |g.flipped|;
    forall k | 0 <= k < |g.flipped|
      ensures back.flipped[k] == g.flipped[k]
    {
    }
  }

  /** A pending flip-back happens whether or not the game is paused in
      between: pausing and settling commute. */
  lemma SettleDespitePause(g: Game)
    requires Valid(g) && g.settling.Some?
    ensures Settle(Pause(g)) == Pause(Settle(g))
  {
  }

  // ---------------------------------------------------------------------
  // Actions and events
  // ---------------------------------------------------------------------

  /** The condition under which an action can be carried out: re-dealing
      needs a dealt deck of the right size and no pending flip-back, and the
      settings panel is only asked for when no game is playing. */
  predicate ActionReady(g: Game, a: Action, deck: seq<int>)
  {
    match a
    case StartNew => !g.isProcessing && Deck.IsDeck(deck, g.sizeField)
    case Redeal => !g.isProcessing && Deck.IsDeck(deck, g.boardSize)
    case ShowSettings => !g.isPlaying
    case _ => true
  }

  /** Carries out an action of the keyboard table (`restart` is `initGame`,
      `showSettings` stops the clock and shows the form). */
  function Apply(g: Game, a: Action, deck: seq<int>): (r: Game)
    requires Valid(g) && ActionReady(g, a, deck)
    ensures Valid(r)
    ensures a == NoAction ==> r == g
    ensures a == ShowSettings ==> r.view == Settings && !r.timerOn && SameBoard(r, g)
    ensures a == ShowBoard ==> r.view == Board && SameBoard(r, g)
    ensures a !in {StartNew, Redeal} ==> SameBoard(r, g)
    ensures a in {StartNew, Redeal} ==> r.flippedCouples == 0
    ensures r.scores == g.scores
  {
    match a
    case StartNew => NewGame(g, deck)
    case Resume => Play(g)
    case Redeal => InitGame(g, deck)
    case Hold => Pause(g)
    case ShowSettings => g.(timerOn := false, view := Settings)
    case ShowBoard => g.(view := Board)
    case NoAction => g
  }

  /** The action `handleKeydownEvent` takes on a key press in this session. */
  function KeyAction(g: Game, key: Key): Action
  {
    KeydownAction(key, g.view, g.isPaused, g.isPlaying)
  }

  /** Whatever key is pressed in a valid session, a re-deal it asks for
      never meets a pending flip-back, and a request for the settings panel
      comes only when no game is playing. A new game it asks for finds a
      deck only on a board size the dealing loop can finish: Enter on the
      settings panel does not check the form, so on any other size the key
      press cannot complete. */
  lemma KeyActionsAreReady(g: Game, key: Key, deck: seq<int>)
    requires Valid(g)
    ensures KeyAction(g, key) in {StartNew, Redeal} ==> !g.isProcessing
    ensures KeyAction(g, key) == StartNew && Deck.IsDeck(deck, g.sizeField) ==>
              Deck.CanDeal(g.sizeField)
    ensures KeyAction(g, key) == ShowSettings ==> !g.isPlaying
  {
    if KeyAction(g, key) == StartNew && Deck.IsDeck(deck, g.sizeField) {
      Deck.DeckShape(deck, g.sizeField);
    }
  }

  /** Escape on a running board pauses it, and Enter then resumes it exactly
      as it was. */
  lemma EscapeThenEnterResumes(g: Game)
    requires Valid(g) && g.view == Board && g.isPlaying && !g.isPaused
    ensures KeyAction(g, Escape) == Hold
    ensures KeyAction(Apply(g, Hold, []), Enter) == Resume
    ensures Apply(Apply(g, Hold, []), Resume, []) == g
  {
  }

  datatype Event =
    | CardClicked(slot: nat)
    | SettleElapsed
    | TimerTick
    | PlayCalled
    | PauseCalled
    | RestartCalled
    | StartPressed
    | KeyPressed(key: Key)
    | NameTyped(name: string)
    | SizeTyped(size: nat)

  /** When an event can arrive: cards and the game buttons live on the board
      panel, the form and its start button on the settings panel (a disabled
      button cannot be pressed), a flip-back only when one is pending, and
      any event that re-deals comes with a dealt deck of the right size.
      The play and restart buttons show from `play` on; `endGame` hides
      play, and `initGame` hides both. The pause button shows from `play`
      until `pause`, `endGame` or `initGame` hides it. A finished game is
      one whose last couple is matched. */
  predicate Enabled(g: Game, e: Event, deck: seq<int>)
  {
    match e
    case CardClicked(slot) => g.view == Board && slot < |g.deck|
    case SettleElapsed => g.settling.Some?
    case TimerTick => true
    case PlayCalled => g.view == Board && g.isPlaying
    case PauseCalled => g.view == Board && g.isPlaying && !g.isPaused
    case RestartCalled =>
      && g.view == Board
      && (g.isPlaying || 0 < g.couplesCount == g.flippedCouples)
      && ActionReady(g, Redeal, deck)
    case StartPressed =>
      g.view == Settings && StartButtonEnabled(g.playerName, g.sizeField) &&
      ActionReady(g, StartNew, deck)
    case KeyPressed(key) => ActionReady(g, KeyAction(g, key), deck)
    case NameTyped(_) => g.view == Settings
    case SizeTyped(_) => g.view == Settings
  }

  /** Typing into the settings form changes the form and nothing else. */
  function EditForm(g: Game, playerName: string, sizeField: nat): (r: Game)
    requires Valid(g)
    ensures Valid(r) && r.playerName == playerName && r.sizeField == sizeField
    ensures r.(playerName := g.playerName, sizeField := g.sizeField) == g
  {
    g.(playerName := playerName, sizeField := sizeField)
  }

  /** One event. Every event keeps the session invariant. */
  function Step(g: Game, e: Event, deck: seq<int>): (r: Game)
    requires Valid(g) && Enabled(g, e, deck)
    ensures Valid(r)
    ensures r.flippedCouples <= g.flippedCouples + 1
    ensures r.scores != g.scores ==> e.CardClicked? && r.flippedCouples == r.couplesCount
    ensures !e.CardClicked? && !e.StartPressed? && !e.RestartCalled? &&
            !(e.KeyPressed? && KeyAction(g, e.key) in {StartNew, Redeal}) ==>
              r.flippedCouples == g.flippedCouples && r.deck == g.deck
  {
    match e
    case CardClicked(slot) => Click(g, slot)
    case SettleElapsed => Settle(g)
    case TimerTick => Tick(g)
    case PlayCalled => Play(g)
    case PauseCalled => Pause(g)
    case RestartCalled => InitGame(g, deck)
    case StartPressed => NewGame(g, deck)
    case KeyPressed(key) => Apply(g, KeyAction(g, key), deck)
    case NameTyped(name) => EditForm(g, name, g.sizeField)
    case SizeTyped(size) => EditForm(g, g.playerName, size)
  }

  /** An event together with the deck a re-deal would use. */
  datatype Input = Input(event: Event, deck: seq<int>)

  /** Runs a series of events from a valid session; `None` when one of them
      cannot arrive in the session it meets. */
  function Run(g: Game, inputs: seq<Input>): (r: Option<Game>)
    requires Valid(g)
    ensures r.Some? ==> Valid(r.value) && r.value.flippedCouples <= r.value.couplesCount
    decreases |inputs|
  {
    if |inputs| == 0 then Some(g)
    else if !Enabled(g, inputs[0].event, inputs[0].deck) then None
    else Run(Step(g, inputs[0].event, inputs[0].deck), inputs[1..])
  }

  // ---------------------------------------------------------------------
  // Scenarios and the Enter-key finding
  // ---------------------------------------------------------------------

  /** Deck [1,2,1,2]: turning slots 0 and 1 fails, both turn back face down
      after the flip-back, and no couple is matched. */
  lemma MismatchScenario()
    ensures Deck.IsDeck([1, 2, 1, 2], 2)
    ensures var g := NewGame(Initial("ann", 2, map[]), [1, 2, 1, 2]);
            var tried := Click(Click(g, 0), 1);
            var back := Settle(tried);
            tried.isProcessing && tried.flipped == [true, true, false, false] &&
            back.flipped == [false, false, false, false] && back.flippedCouples == 0
  {
    var deck := [1, 2, 1, 2];
    assert multiset(deck)[1] == 2 && multiset(deck)[2] == 2;
    var g := NewGame(Initial("ann", 2, map[]), deck);
    var once := Click(g, 0);
    assert IsMismatch(once, 1);
  }

  /** Deck [3,3,7,7]: turning slots 0 and 1 matches, turning slots 2 and 3
      completes the board, the game stops and, with no record yet, the time
      becomes the record for size 2 and the best-score table shows. */
  lemma TwoPairsScenario()
    ensures Deck.IsDeck([3, 3, 7, 7], 2)
    ensures var g := NewGame(Initial("ann", 2, map[]), [3, 3, 7, 7]);
            var first := Click(Click(g, 0), 1);
            var done := Click(Click(first, 2), 3);
            first.flippedCouples == 1 && first.isPlaying &&
            done.flippedCouples == 2 && !done.isPlaying &&
            done.scores == map[2 := Scores.Score(0, "ann")] && done.view == BestScoreTable
  {
    var deck := [3, 3, 7, 7];
    assert multiset(deck)[3] == 2 && multiset(deck)[7] == 2;
    var g := NewGame(Initial("ann", 2, map[]), deck);
    var a := Click(g, 0);
    assert IsMatch(a, 1);
    var first := Click(a, 1);
    var b := Click(first, 2);
    assert IsMatch(b, 3);
  }

  /** As written, Enter on the settings panel starts a new game even with
      no player name and a board size of 3, which the start button refuses;
      no deck of 3x3 cards exists, and the dealing loop for it makes five
      couples for nine slots, so its last free-slot pick never returns. */
  lemma EnterBypassesStartButton()
    ensures var g := Initial("", 3, map[]);
            KeyAction(g, Enter) == StartNew &&
            !StartButtonEnabled(g.playerName, g.sizeField) &&
            !Deck.CanDeal(g.sizeField) &&
            Deck.DealtCouples(3) == 5 &&
            forall deck :: !Deck.IsDeck(deck, g.sizeField)
  {
    Deck.NoDeckUnlessDealable(3);
  }

  /** As written, Enter on the settings panel deals a new board whatever the
      form holds: with no player name and a board size of 4 it lays out a
      4x4 deck face down on the board panel. */
  lemma EnterDealsWithoutName(deck: seq<int>)
    requires Deck.IsDeck(deck, 4)
    ensures var g := Initial("", 4, map[]);
            !StartButtonEnabled(g.playerName, g.sizeField) &&
            Enabled(g, KeyPressed(Enter), deck) &&
            var r := Step(g, KeyPressed(Enter), deck);
            r.view == Board && r.boardSize == 4 && r.deck == deck && r.couplesCount == 8 &&
            r.flippedCouples == 0 && !r.isPlaying
  {
  }

  /** With Enter acting as the start button, a key press starts a new game
      only on a board size the dealing loop can finish. */
  lemma EnterRespectsStartButton(g: Game, key: Key)
    requires Valid(g)
    requires GuardedKeydownAction(key, g.view, g.isPaused, g.isPlaying,
                                  StartButtonEnabled(g.playerName, g.sizeField)) == StartNew
    ensures StartButtonEnabled(g.playerName, g.sizeField)
    ensures Deck.CanDeal(g.sizeField) && g.sizeField > 0
  {
    StartButtonGuardsDealing(g.playerName, g.sizeField);
  }
}

=== FILE: shared.dfy ===
/** The helpers of js/shared.js: the free-cell pick that deck generation
    relies on, and the clock formatting of the timer display. */
module Shared {
  import opened Optional

  // ---------------------------------------------------------------------
  // Fresh arrays
  // ---------------------------------------------------------------------

  /** `Array(n)`: n cells, every one of them holding the unset value. */
  function Fill<T>(n: nat, unset: T): (a: seq<T>)
    ensures |a| == n
    ensures forall k :: 0 <= k < n ==> a[k] == unset
    ensures multiset(a)[unset] == n
  {
    if n == 0 then [] else Fill(n - 1, unset) + [unset]
  }

  // ---------------------------------------------------------------------
  // getFreeIndex
  // ---------------------------------------------------------------------

  /** The indices whose cell is still unset: the possible results of a pick. */
  ghost function FreeIndices<T>(a: seq<T>, unset: T): set<nat>
  {
    set i: nat | i < |a| && a[i] == unset
  }

  /** The pick of a random free cell, as a nondeterministic choice. The
      source loops until it draws an unset cell, so it only returns when
      one exists; a pick never changes the array it inspects. */
  method GetFreeIndex<T(==)>(a: seq<T>, unset: T) returns (index: nat)
    requires unset in a
    ensures index < |a| && a[index] == unset
  {
    index :| index < |a| && a[index] == unset;
  }

  /** Every draw is one `getRandomInt(0, length - 1)` result. */
  predicate DrawsInRange<T>(a: seq<T>, draws: seq<nat>)
  {
    forall j :: 0 <= j < |draws| ==> draws[j] < |a|
  }

  /** The rejection loop of the pick, run against a finite sequence of random
      draws: the first draw that lands on an unset cell is the result, and
      `None` means the loop is still drawing when the draws run out. */
  function FirstFreeDraw<T(==)>(a: seq<T>, unset: T, draws: seq<nat>): (r: Option<nat>)
    requires DrawsInRange(a, draws)
    ensures r.Some? ==> r.value < |a| && a[r.value] == unset
    ensures r.Some? ==> exists j :: 0 <= j < |draws| && draws[j] == r.value &&
                          forall i :: 0 <= i < j ==> a[draws[i]] != unset
    ensures r.None? <==> forall j :: 0 <= j < |draws| ==> a[draws[j]] != unset
    ensures unset !in a ==> r.None?
    decreases |draws|
  {
    if |draws| == 0 then None
    else if a[draws[0]] != unset then
      var r := FirstFreeDraw(a, unset, draws[1..]);
      assert forall j :: 1 <= j < |draws| ==> draws[j] == draws[1..][j - 1];
      r
    else Some(draws[0])
  }

  /** The nondeterministic choice and the rejection loop agree: every free
      cell is the outcome of some run of draws, and every outcome is free. */
  lemma EveryFreeIndexCanBeDrawn<T>(a: seq<T>, unset: T, i: nat)
    requires i < |a|
    ensures i in FreeIndices(a, unset) <==>
            exists draws :: DrawsInRange(a, draws) && FirstFreeDraw(a, unset, draws) == Some(i)
  {
    if a[i] == unset {
      assert DrawsInRange(a, [i]) && FirstFreeDraw(a, unset, [i]) == Some(i);
    }
  }

  // ---------------------------------------------------------------------
  // Decimal numerals
  // ---------------------------------------------------------------------

  predicate IsDigit(c: char) { '0' <= c <= '9' }

  predicate IsNumeral(s: string)
  {
    |s| > 0 && forall k :: 0 <= k < |s| ==> IsDigit(s[k])
  }

  function DigitValue(c: char): nat
    requires IsDigit(c)
  {
    c as int - 48
  }

  function DigitChar(d: nat): (c: char)
    requires d <= 9
    ensures IsDigit(c)
  {
    (48 + d) as char
  }

  /** The value a string of digits denotes (the reference reading). */
  function ParseDecimal(s: string): nat
    requires forall k :: 0 <= k < |s| ==> IsDigit(s[k])
  {
    if |s| == 0 then 0
    else 10 * ParseDecimal(s[..|s| - 1]) + DigitValue(s[|s| - 1])
  }

  /** How JavaScript renders a non-negative integer: its shortest numeral. */
  function Decimal(n: nat): (s: string)
    ensures IsNumeral(s)
    ensures ParseDecimal(s) == n
    ensures |s| == 1 <==> n <= 9
    ensures s[0] == '0' ==> n == 0
  {
    if n <= 9 then [DigitChar(n)]
    else
      var s := Decimal(n / 10) + [DigitChar(n % 10)];
      assert s[..|s| - 1] == Decimal(n / 10);
      s
  }

  // ---------------------------------------------------------------------
  // pad and formatTime
  // ---------------------------------------------------------------------

  /** `pad`: a one-digit value gains a leading zero, a larger value is
      returned as it is (and shows as its numeral when concatenated). */
  function Pad(val: nat): (r: string)
    ensures IsNumeral(r) && |r| >= 2
    ensures ParseDecimal(r) == val
    ensures val <= 9 ==> |r| == 2 && r[0] == '0'
    ensures val > 9 ==> r == Decimal(val)
    ensures |r| == 2 <==> val <= 99
  {
    if val > 9 then Decimal(val)
    else
      var r := "0" + Decimal(val);
      assert r[..1] == "0";
      r
  }

  /** The three fields of a clock string. */
  datatype Clock = Clock(hours: nat, minutes: nat, seconds: nat)

  /** Splits a string at every separator. */
  function SplitOn(s: string, sep: char): (parts: seq<string>)
    ensures |parts| >= 1
  {
    if |s| == 0 then [""]
    else
      var rest := SplitOn(s[1..], sep);
      if s[0] == sep then [""] + rest
      else [[s[0]] + rest[0]] + rest[1..]
  }

  /** Reads a string of the form `H:M:S` with numeral fields back into a clock. */
  function ParseClock(t: string): Option<Clock>
  {
    var parts := SplitOn(t, ':');
    if |parts| == 3 && IsNumeral(parts[0]) && IsNumeral(parts[1]) && IsNumeral(parts[2])
    then Some(Clock(ParseDecimal(parts[0]), ParseDecimal(parts[1]), ParseDecimal(parts[2])))
    else None
  }

  lemma {:induction false} SplitOnWithoutSeparator(a: string, sep: char)
    requires sep !in a
    ensures SplitOn(a, sep) == [a]
    decreases |a|
  {
    if |a| > 0 {
      SplitOnWithoutSeparator(a[1..], sep);
      assert [a[0]] + a[1..] == a;
    }
  }

  lemma {:induction false} SplitOnFirstSeparator(a: string, sep: char, b: string)
    requires sep !in a
    ensures SplitOn(a + [sep] + b, sep) == [a] + SplitOn(b, sep)
    decreases |a|
  {
    if |a| == 0 {
      assert a + [sep] + b == [sep] + b;
      assert ([sep] + b)[1..] == b;
    } else {
      var s := a + [sep] + b;
      assert s[1..] == a[1..] + [sep] + b;
      SplitOnFirstSeparator(a[1..], sep, b);
      assert [a[0]] + a[1..] == a;
    }
  }

  lemma NumeralHasNoColon(s: string)
    requires IsNumeral(s)
    ensures ':' !in s
  {
  }

  /** Joining three numerals with colons and splitting them again gives
      the numerals back. */
  lemma ClockFieldsRoundTrip(h: string, m: string, s: string)
    requires IsNumeral(h) && IsNumeral(m) && IsNumeral(s)
    ensures ParseClock(h + ":" + m + ":" + s) ==
            Some(Clock(ParseDecimal(h), ParseDecimal(m), ParseDecimal(s)))
  {
    NumeralHasNoColon(h);
    NumeralHasNoColon(m);
    NumeralHasNoColon(s);
    assert h + ":" + m + ":" + s == h + [':'] + (m + [':'] + s);
    SplitOnFirstSeparator(h, ':', m + [':'] + s);
    SplitOnFirstSeparator(m, ':', s);
    SplitOnWithoutSeparator(s, ':');
  }

  /** `formatTime`: hours, then the WHOLE number of minutes (not reduced
      modulo 60), then the seconds within the minute, each padded. */
  function FormatTime(seconds: nat): (t: string)
    ensures seconds < 3600 ==> |t| == 8 && t[..3] == "00:" && t[5] == ':'
  {
    Pad(seconds / 3600) + ":" + Pad(seconds / 60) + ":" + Pad(seconds % 60)
  }

  /** Reading the display back gives hours, total minutes and seconds; the
      seconds field is below 60 and minutes and seconds alone add up to the
      elapsed time, so from one hour on the minutes field passes 59. */
  lemma FormatTimeRoundTrip(seconds: nat)
    ensures ParseClock(FormatTime(seconds)) ==
            Some(Clock(seconds / 3600, seconds / 60, seconds % 60))
    ensures var c := ParseClock(FormatTime(seconds)).value;
            c.seconds < 60 && c.minutes * 60 + c.seconds == seconds &&
            (seconds >= 3600 <==> c.minutes >= 60)
  {
    ClockFieldsRoundTrip(Pad(seconds / 3600), Pad(seconds / 60), Pad(seconds % 60));
  }

  /** For durations under an hour the display is `00:MM:SS`, and its two
      last fields read back as the minutes and seconds. */
  lemma ShortDurationForm(seconds: nat)
    requires seconds < 3600
    ensures var t := FormatTime(seconds);
            |t| == 8 && t[..3] == "00:" && t[5] == ':' &&
            IsNumeral(t[3..5]) && IsNumeral(t[6..]) &&
            ParseDecimal(t[3..5]) == seconds / 60 && ParseDecimal(t[6..]) == seconds % 60
  {
    var t := FormatTime(seconds);
    assert t[3..5] == Pad(seconds / 60);
    assert t[6..] == Pad(seconds % 60);
  }

  /** The clock as its comment describes it (`HH:MM:SS`): minutes reduced
      modulo 60, so that every field is a proper clock field. */
  function FormatClock(seconds: nat): (t: string)
    ensures seconds < 3600 ==> t == FormatTime(seconds)
  {
    Pad(seconds / 3600) + ":" + Pad(seconds / 60 % 60) + ":" + Pad(seconds % 60)
  }

  /** The corrected display reads back as a proper clock whose three fields
      add up to the elapsed time. */
  lemma FormatClockRoundTrip(seconds: nat)
    ensures ParseClock(FormatClock(seconds)).Some?
    ensures var c := ParseClock(FormatClock(seconds)).value;
            c.minutes < 60 && c.seconds < 60 &&
            c.hours * 3600 + c.minutes * 60 + c.seconds == seconds
  {
    var h, m, sec := seconds / 3600, seconds / 60 % 60, seconds % 60;
    ClockFieldsRoundTrip(Pad(h), Pad(m), Pad(sec));
    ClockArithmetic(seconds, h, m, sec);
  }

  /** Hours, minutes within the hour and seconds within the minute add up
      to the elapsed time. */
  lemma ClockArithmetic(seconds: nat, h: nat, m: nat, s: nat)
    requires h == seconds / 3600 && m == seconds / 60 % 60 && s == seconds % 60
    ensures m < 60 && s < 60 && h * 3600 + m * 60 + s == seconds
  {
    var totalMinutes := seconds / 60;
    assert totalMinutes * 60 + s == seconds;
    assert totalMinutes / 60 == h;
    assert h * 60 + m == totalMinutes;
  }

  /** One hour, one minute and one second shows as `01:61:01`: the minutes
      field counts the hour a second time. */
  lemma FormatTimeShowsMinutesPastSixty()
    ensures FormatTime(3661) == "01:61:01"
    ensures ParseClock(FormatTime(3661)) == Some(Clock(1, 61, 1))
  {
    var h, m, sec := 3661 / 3600, 3661 / 60, 3661 % 60;
    assert h == 1 && m == 61 && sec == 1;
    PadOfOneAndSixtyOne();
    ClockFieldsRoundTrip(Pad(h), Pad(m), Pad(sec));
  }

  lemma PadOfOneAndSixtyOne()
    ensures Pad(1) == "01" && Pad(61) == "61"
  {
    assert Decimal(6) == [DigitChar(6)];
    assert Decimal(61) == Decimal(6) + [DigitChar(1)];
  }
}
